=== FILE: README.md ===
# goway request matching, modelled in Dafny

This project models the request-matching core of the goway HTTP router
(`match.go`). It covers three things:

- `routeMatcher.New`, which records the request method, the canonical request
  path and its segment slice.
- `routeMatcher.matchPathPieces`, the segment-by-segment prefix comparison of
  a pattern with a request slice. On the way it binds `{var}` placeholders to
  request segments.
- `routeMatcher.Groups` and `routeMatcher.Routes`, the two ordered scans over
  router groups and routes. Each returns a matched candidate and a status code:
  0 for success, 404, 405, or the initial 200.

## Layout

- `wrappers.dfy`: module `Wrappers`, holding `Option`.
- `helpers.dfy`: module `Helpers`.
  - `Prefix` is a pattern's segment slice plus its exclude count.
  - `Env` holds the helpers whose bodies are not part of this model: `pathToStandart`, `splitPath`, `isPathSliceEmpty`, `isRouteVar`, `isMethodAllowed` and `Prefix.getExcluded`.
  - Every operation takes `Env` as a parameter, so nothing is assumed about these helpers beyond what a lemma states as a hypothesis.
- `pieces.dfy`: module `Pieces`, the comparator.
  - `addVarToContext` is modelled as appending a `Binding(name, value)` to an output sequence.
  - The Go index panic is an explicit verdict, `OutOfRange`. It happens when the pattern runs past the end of the request slice.
  - `VarBindings` is the reference definition of the bindings in position order. `FirstDisagreement` is the position where the comparison must stop.
- `match.dfy`: module `Match`, the scans.
  - Both scans are one fold, `ScanFrom`, over `Candidate`s. They differ in two things:
    - when the working slice is recomputed: exclude count > 0 for groups, `isUnderGroup` for routes;
    - the length filter.
  - The loop state is the sticky `matched` candidate, `statusCode`, the working slice and the bindings written so far.
  - `matched` is an index into the candidate list, standing for the Go pointer.
- `match_spec.dfy`: module `MatchSpec`.
  - `Expected` is an independent description of a scan's outcome, stated per candidate index.
  - It is built from what the working slice is, whether the candidate is compared, whether it hits, panics or is accepted, and the first decisive candidate.
  - The theorem `ScanMeetsReference` proves that the scan computes it. The precedence rules follow as corollaries.
- `groups_length_filter.dfy`: module `GroupsLengthFilter`, the length-filter issue of `Groups` (see "## Findings").
- `scenarios.dfy`: module `Scenarios`.
  - The scenarios of the repository's router tests, worked out on the model.
  - Also the quirks of the code as written: the sticky match, the working slice that carries over, and the exit with 200.

The model follows the code as written, including where it departs from its
own comments:

- **The working slice is not always recomputed.** It is recomputed only when the candidate asks for it (match.go:35-38, match.go:98-101). Otherwise the slice left by the previous candidate is reused.
- **A scan can return the initial status 200, or a candidate together with 405.** This happens when the last candidate is skipped by the length filter (match.go:29, match.go:84, match.go:148). The doc comments at match.go:23-27 and match.go:87-91 promise either a candidate with status 0 or nil with 404 or 405, and both exits contradict them.
- **`matched` is never reset between candidates** (match.go:45-48, match.go:108-111).
- **The `Groups` length filter uses the full request slice, not the stripped one** (match.go:41). The comparator can therefore index past the end of the stripped slice. The stripped slice is what the comparison at match.go:45 reads, and `Routes` filters on that slice (match.go:104) (see "## Findings").

## Model

| member | source | states |
|---|---|---|
| Pieces.FirstDisagreement | match.go:169-194 | the loop stops at the first position where the segments neither are equal nor have a variable in the pattern, or at the end of the shorter slice; every earlier position agrees |
| Pieces.ComparePieces | match.go:169-194 | from position i, the loop returns true iff the pattern fits in the request and agrees at every remaining position; it indexes out of range iff the request is shorter and agrees as far as it goes; the bindings are those of the agreeing positions, in order |
| Pieces.MatchPathPieces | match.go:162-196 | two empty slices match with no bindings; otherwise a hit iff the pattern is non-empty, fits in the request and agrees position by position; an index panic iff the request is shorter but agrees as far as it goes; the bindings are those of the positions before the first disagreement, in position order |
| Pieces.EmptyPatternMatchesOnlyEmpty | match.go:162-169 | an empty pattern matches only when both slices count as empty for `isPathSliceEmpty`; otherwise the loop body never runs and the result is false with no bindings |
| Pieces.EmptyPatternMatchesOnlyEmptySlice | match.go:162-169 | when `isPathSliceEmpty` means zero segments, an empty pattern matches the empty request and returns false with no bindings against any other |
| Pieces.PrefixMatch | match.go:153-160 | when the pattern is no longer than the request, the comparator never panics and returns true iff both count as empty for `isPathSliceEmpty`, or the pattern is non-empty and every pattern position equals the request segment or is a variable |
| Pieces.TrailingSegmentsIgnored | match.go:153-160 | for a pattern that `isPathSliceEmpty` does not call empty, request segments past its end change neither the verdict nor the bindings |
| Pieces.LiteralMatchBindsNothing | match.go:173-185 | a pattern equal to the start of the request binds nothing, even one whose segment is written like a variable, and it matches iff the pattern is non-empty or both slices count as empty for `isPathSliceEmpty` |
| Pieces.LiteralPatternBindsNothing | match.go:173-185 | a pattern without variable segments binds nothing, whatever the verdict |
| Pieces.BindingsComeFromVariables | match.go:173-185 | every binding comes from a position where the pattern segment differs from the request segment and is a variable, and carries that variable's name and the request segment |
| Pieces.PartialBindingsSurviveMismatch | match.go:176-184 | unless both slices count as empty for `isPathSliceEmpty`, for any pattern no longer than the request whose first disagreement d lies inside the pattern, the comparator returns false together with the bindings of every position before d; nothing bound is taken back |
| Match.Step | match.go:33-83 | one iteration keeps the status at 200 or 405 while it continues, never lowers a 405, and never takes back bindings; a stop with 0 carries a candidate that allows the method; a stop with 404 carries no candidate and happens only before any 405 |
| Match.ScanFrom | match.go:33-84 | the scan returns one of 0, 200, 404 and 405; 0 comes with a candidate that allows the method; 404 comes without a candidate; a 405 once recorded ends as 0 or 405; bindings only grow; with a working-slice length filter it never panics |
| Match.Groups | match.go:28-85 | no groups gives (nil, 200); status 0 comes with a group that allows the method; 404 comes without a group |
| Match.Routes | match.go:92-149 | the route scan never panics; no routes gives (nil, 200); status 0 comes with a route that allows the method; 404 comes without a route |
| Match.GroupsCorrected | match.go:40-43 | the group scan with the length filter on the working slice never panics; no groups gives (nil, 200); status 0 comes with a group that allows the method; 404 comes without a group |
| MatchSpec.ScanMeetsReference | match.go:28-149 | both scans compute the reference outcome: the first decisive candidate decides, as a panic or as a success with that candidate and the bindings written so far; with none, 405 if any candidate hit the path, otherwise 404 when the last candidate was compared and 200 when it was skipped |
| MatchSpec.FirstAllowedMatchWins | match.go:45-72 | the scan returns 0 with candidate k iff k is compared, matches and allows the method and no earlier candidate is decisive; the bindings are those of the candidates up to k, and nothing later is looked at |
| MatchSpec.PanicOutcome | match.go:41-45 | the scan panics iff some compared candidate indexes out of range before any candidate was decisive |
| MatchSpec.NotFoundOnlyWithoutAnyMatch | match.go:52-63 | 404 is returned iff the last candidate is compared and no candidate hits or panics; 404 never carries a candidate |
| MatchSpec.MethodNotAllowedNeverDowngraded | match.go:73-79 | 405 is returned iff some candidate hit the path and none was decisive, so a later non-matching candidate never turns 405 into 404; the candidate is nil when the last candidate was compared, otherwise it is the last one that hit |
| MatchSpec.InitialStatusOnlyWhenLastSkipped | match.go:29-84 | 200 is returned iff the list is empty or the last candidate is skipped, and nothing hits or panics; the candidate is then nil; an empty list gives (nil, 200) with no bindings |
| MatchSpec.FailedScanKeepsAllBindings | match.go:45-48 | a scan that does not succeed has written the bindings of every compared candidate; none is undone |
| MatchSpec.WorkingSliceIsLatestRecompute | match.go:35-38 | the working slice of a candidate is the full request slice when no candidate up to it recomputes, and otherwise the slice computed by the latest candidate that does |
| MatchSpec.LaterCandidatesIgnored | match.go:67-72 | appending candidates after a decisive one leaves the outcome and the bindings unchanged |
| MatchSpec.RouteScanIsExactMatch | match.go:98-111 | in `Routes`, the recompute flag is `isUnderGroup`; a route is compared iff its pattern is exactly as long as the working slice; it never panics; it hits iff the slices are both empty or agree at every position |
| MatchSpec.GroupScanIsPrefixMatch | match.go:35-48 | in `Groups`, the recompute flag is a positive exclude count; a group is compared iff its pattern is no longer than the full request slice; it hits iff it is a prefix match of the working slice; it panics iff the working slice is shorter but agrees as far as it goes |
| GroupsLengthFilter.GroupsPanicsOnShortStrippedSlice | match.go:41-45 | a nested group whose stripped slice is shorter than its pattern passes the filter and makes `Groups` panic, while the corrected scan skips it |
| GroupsLengthFilter.GroupsCorrectedAgreesWithoutExclusion | match.go:35-43 | without exclusion the working slice is the full request slice, and the corrected scan returns exactly what `Groups` returns |
| Scenarios.VarsGroupScenario | router_test.go:526-564 | the group `{username}/actions/{id}` matches the request `/oklookat/actions/69/coolword/hello/world` as a prefix and binds `username` and `id` |
| Scenarios.VarsRouteScenario | router_test.go:526-564 | the route `{word}/hello/{who}`, compared with the stripped slice, matches exactly and binds `word` and `who` |
| Scenarios.Group404Scenario | router_test.go:381-406 | the group `/123/456/789` is skipped for the request `/fffffffff`, and `Groups` returns (nil, 200), not 404; the test's 404 handler is chosen by the dispatch step, which is not part of this model |
| Scenarios.RouteAllowedMethodsScenario | router_test.go:173-215 | with a GET route and then a DELETE route on one path, GET picks the first and DELETE the second, as the test expects (the test sends GET before the DELETE route is registered; the first route decides either way); the third case, POST refused by both and yielding (nil, 405), is not in the test and follows from match.go:136-141 |
| Scenarios.LongLittlePathsScenario | router_test.go:593-657 | the shorter route `/actions` and the longer group `/long/group/path` are skipped, and the scans pick the candidate of the request's own length |
| Scenarios.StickyMatchScenario | match.go:108-148 | a route that matched but refused the method is still returned with 405 when the last route is skipped by the length filter |
| Scenarios.WorkingSliceCarriesOverScenario | match.go:98-106 | a root route after a route under a group is compared with the stripped slice that route left behind |

## Left out

- Match.New: it is the request record the scans read, built from the abstract `pathToStandart` and `splitPath`; it carries no property beyond its definition, so it has no contract of its own.
- The bodies of `pathToStandart`, `splitPath`, `isPathSliceEmpty`, `isRouteVar`, `isMethodAllowed` and `Prefix.getExcluded`. These helpers are not part of this model and are taken as abstract parameters (`Helpers.Env`). Lemmas that need a fact about one of them state it as a hypothesis. Two examples are "`isPathSliceEmpty` means zero segments" (`SaneEmptiness`) and the stripped slice a scenario expects.
- `*http.Request` and the request context. `addVarToContext` is modelled as appending to a bindings sequence.
- The unused `counter` parameter of `matchPathPieces`.
- Allowed-method sets are modelled as `seq<string>` and are only read through `isMethodAllowed`.
- The outer dispatch step that chooses between `Groups` and `Routes`, the 404 and 405 fallback handlers, and middleware and child routers. These are not part of the matching core.
- The HTTP test harness of router_test.go. Its scenarios appear only as example lemmas over the abstract model. The helper results those lemmas assume follow the router's path syntax.
- Pieces.BindingsComeFromVariables: states where each binding comes from, but not their order. The position order is stated by `VarBindings`, which `MatchPathPieces` is proved to return.

## Findings

| source | as written | input that shows it | evidently intended | confidence | as-written member | corrected member |
|---|---|---|---|---|---|---|
| match.go:41 | the `Groups` length filter compares the group's pattern with the full request slice `r.requestPathSlice`, although the comparison at match.go:45 runs on the working slice that prefix exclusion may have shortened | group `{id}/users` with exclude count 1, request `/api/12`, where `getExcluded` leaves `["12"]`: the filter passes (2 <= 2), position 0 binds `id`, and position 1 of the one-segment slice is read out of range | compare the pattern length with the working slice, which the comparator reads (match.go:45, match.go:171) and which `Routes` filters on (match.go:104), so that the group is skipped | medium, not executed | GroupsLengthFilter.GroupsPanicsOnShortStrippedSlice (on `Match.Groups`) | Match.GroupsCorrected (with GroupsLengthFilter.GroupsCorrectedAgreesWithoutExclusion) |

=== FILE: groups_length_filter.dfy ===
/** The length filter of `Groups` (match.go:41) compares a group's pattern
    with the full request slice although the comparison at match.go:45 runs
    against the working slice, which prefix exclusion may have shortened. */
module GroupsLengthFilter {
  import opened Wrappers
  import opened Helpers
  import opened Pieces
  import opened Match

  /** As written: a nested group (exclude count 1) with a two-segment pattern
      and a two-segment request whose stripped slice has one segment passes
      the filter; the variable at position 0 agrees, and the comparator then
      reads position 1 of a one-segment slice. The corrected scan skips the
      group instead. */
  lemma GroupsPanicsOnShortStrippedSlice(env: Env)
    requires !env.isPathSliceEmpty(["{id}", "users"])
    requires env.isRouteVar("{id}") == Some("id")
    requires env.getExcluded(Prefix(["{id}", "users"], 1), "/api/12") == ["12"]
    ensures Groups(env, RouteMatcher("GET", "/api/12", ["api", "12"]),
                   [Router(Prefix(["{id}", "users"], 1), [])]) == Panicked
    ensures GroupsCorrected(env, RouteMatcher("GET", "/api/12", ["api", "12"]),
                            [Router(Prefix(["{id}", "users"], 1), [])]) == Finished(None, StatusInitial, [])
  {
    var pattern := ["{id}", "users"];
    var m := RouteMatcher("GET", "/api/12", ["api", "12"]);
    var routers := [Router(Prefix(pattern, 1), [])];
    var corrected := GroupSearch(env, m, routers, NotLongerThanWorking);
    assert corrected.candidates == [Candidate(Prefix(pattern, 1), [], true)];
    var st := InitialState(m);
    assert Step(corrected, 0, st) == Continue(st.(working := ["12"]));
    assert ScanFrom(corrected, 0, st) == ScanFrom(corrected, 1, st.(working := ["12"]));
    assert MatchPathPieces(env, pattern, ["12"]).verdict == OutOfRange by {
      assert AgreeBetween(env, pattern, ["12"], 0, 1);
    }
  }

  lemma {:induction false} FilterIrrelevantWithoutExclusion(s: Search, i: nat, st: ScanState)
    requires i <= |s.candidates|
    requires st.matched.Some? ==> st.matched.value < i && st.status == StatusMethodNotAllowed
    requires st.status == StatusInitial || st.status == StatusMethodNotAllowed
    requires forall j :: 0 <= j < |s.candidates| ==> !s.candidates[j].recompute
    requires st.working == s.matcher.requestPathSlice
    requires s.filter == NotLongerThanRequest
    ensures ScanFrom(s, i, st) == ScanFrom(s.(filter := NotLongerThanWorking), i, st)
    decreases |s.candidates| - i
  {
    var t := s.(filter := NotLongerThanWorking);
    if i < |s.candidates| {
      var step := Step(s, i, st);
      assert Step(t, i, st) == step;
      if step.Continue? {
        FilterIrrelevantWithoutExclusion(s, i + 1, step.next);
      }
    }
  }

  /** Where no group has a positive exclude count the working slice is always
      the full request slice, and the corrected scan returns exactly what the
      scan as written returns. */
  lemma GroupsCorrectedAgreesWithoutExclusion(env: Env, m: RouteMatcher, routers: seq<Router>)
    requires forall j :: 0 <= j < |routers| ==> routers[j].prefix.excludeCount <= 0
    ensures GroupsCorrected(env, m, routers) == Groups(env, m, routers)
  {
    FilterIrrelevantWithoutExclusion(GroupSearch(env, m, routers, NotLongerThanRequest), 0, InitialState(m));
  }
}

=== FILE: helpers.dfy ===
/** The collaborators that match.go calls but that are not part of this model:
    path normalization and splitting, the empty-slice test, the route-variable
    recogniser, the allowed-method test and prefix exclusion. Each is an
    uninterpreted function value of an `Env`, so every result about the matcher
    holds for whatever those helpers compute. */
module Helpers {
  import opened Wrappers

  /** A registered path prefix: its segments and the number of leading request
      segments that belong to an enclosing group. */
  datatype Prefix = Prefix(pathSlice: seq<string>, excludeCount: int)

  datatype Env = Env(
    /** `pathToStandart`: canonical form of a raw request path. */
    pathToStandart: string -> string,
    /** `splitPath`: the segments of a canonical path. */
    splitPath: string -> seq<string>,
    /** `isPathSliceEmpty`: whether a segment slice stands for "no segments". */
    isPathSliceEmpty: seq<string> -> bool,
    /** `isRouteVar`: `Some(name)` when a pattern segment is a `{name}` placeholder. */
    isRouteVar: string -> Option<string>,
    /** `isMethodAllowed`: whether an allowed-methods list admits a request method. */
    isMethodAllowed: (seq<string>, string) -> bool,
    /** `prefix.getExcluded`: the segments of a canonical path left after the
        prefix's excluded leading segments are removed. */
    getExcluded: (Prefix, string) -> seq<string>
  )

  /** The reading of `isPathSliceEmpty` under which a slice is empty exactly
      when it has no segments; general lemmas that depend on it say so. */
  ghost predicate SaneEmptiness(env: Env)
  {
    forall s :: env.isPathSliceEmpty(s) <==> |s| == 0
  }
}

=== FILE: match.dfy ===
/** `routeMatcher` of match.go: the request record set up by `New` and the two
    ordered scans `Groups` and `Routes`. Both scans run the same state machine
    over a list of candidates; they differ only in when the working request
    slice is recomputed and in the length filter applied before comparing. */
module Match {
  import opened Wrappers
  import opened Helpers
  import opened Pieces

  /** The values `statusCode` takes. */
  const StatusInitial := 200
  const StatusOK := 0
  const StatusNotFound := 404
  const StatusMethodNotAllowed := 405

  /** A route group: its prefix and allowed methods (children, middleware and
      handlers play no part in matching). */
  datatype Router = Router(prefix: Prefix, allowedMethods: seq<string>)

  /** A route: its prefix, allowed methods, and whether it sits under a group. */
  datatype Route = Route(prefix: Prefix, allowedMethods: seq<string>, isUnderGroup: bool)

  /** The fields `New` fills in from the request. */
  datatype RouteMatcher = RouteMatcher(requestMethod: string, requestPath: string, requestPathSlice: seq<string>)

  /** `routeMatcher.New`: records the method, the canonical path and its segments. */
  function New(env: Env, requestMethod: string, rawPath: string): RouteMatcher
  {
    var path := env.pathToStandart(rawPath);
    RouteMatcher(requestMethod, path, env.splitPath(path))
  }

  /** What a scan needs of one group or route. `recompute` says whether the
      working slice is recomputed from the canonical path before comparing. */
  datatype Candidate = Candidate(prefix: Prefix, allowedMethods: seq<string>, recompute: bool)

  function GroupCandidate(g: Router): Candidate
  {
    Candidate(g.prefix, g.allowedMethods, g.prefix.excludeCount > 0)
  }

  function RouteCandidate(r: Route): Candidate
  {
    Candidate(r.prefix, r.allowedMethods, r.isUnderGroup)
  }

  /** The length test applied before comparing a candidate:
      `NotLongerThanRequest` is that of `Groups` (pattern length against the
      full request slice), `SameLengthAsWorking` that of `Routes` (pattern
      length equal to the working slice), and `NotLongerThanWorking` that of
      the corrected group scan. */
  datatype LengthFilter = NotLongerThanRequest | SameLengthAsWorking | NotLongerThanWorking

  predicate Passes(filter: LengthFilter, pattern: seq<string>, full: seq<string>, working: seq<string>)
  {
    match filter
    case NotLongerThanRequest => |pattern| <= |full|
    case SameLengthAsWorking => |pattern| == |working|
    case NotLongerThanWorking => |pattern| <= |working|
  }

  /** One scan: the helpers, the request, the candidates in registration order
      and the length filter. */
  datatype Search = Search(env: Env, matcher: RouteMatcher, candidates: seq<Candidate>, filter: LengthFilter)

  /** The loop variables: the sticky `matched` candidate (an index standing for
      the Go pointer), `statusCode`, the working request slice, and the
      bindings written to the request so far. */
  datatype ScanState = ScanState(matched: Option<nat>, status: int, working: seq<string>, bindings: seq<Binding>)

  /** How a scan ends: the returned `(matched, statusCode)` together with the
      bindings written on the way, or an index panic inside the comparator. */
  datatype ScanResult = Finished(matched: Option<nat>, status: int, bindings: seq<Binding>) | Panicked

  datatype StepOutcome = Continue(next: ScanState) | Stop(result: ScanResult)

  function InitialState(m: RouteMatcher): ScanState
  {
    ScanState(None, StatusInitial, m.requestPathSlice, [])
  }

  /** One iteration of the loop body, for candidate `i`. */
  function Step(s: Search, i: nat, st: ScanState): (r: StepOutcome)
    requires i < |s.candidates|
    requires st.matched.Some? ==> st.matched.value < i
    requires st.status == StatusInitial || st.status == StatusMethodNotAllowed
    requires st.matched.Some? ==> st.status == StatusMethodNotAllowed
    ensures r.Continue? ==>
      && (r.next.matched.Some? ==> r.next.matched.value <= i && r.next.status == StatusMethodNotAllowed)
      && (r.next.status == StatusInitial || r.next.status == StatusMethodNotAllowed)
      && (st.status == StatusMethodNotAllowed ==> r.next.status == StatusMethodNotAllowed)
      && st.bindings <= r.next.bindings
    ensures r.Stop? && r.result.Finished? ==>
      && r.result.status in {StatusOK, StatusNotFound, StatusMethodNotAllowed}
      && (r.result.matched.Some? ==> r.result.matched.value <= i && r.result.status == StatusOK)
      && (r.result.status == StatusOK ==>
            r.result.matched.Some?
            && s.env.isMethodAllowed(s.candidates[r.result.matched.value].allowedMethods, s.matcher.requestMethod))
      && (r.result.status == StatusNotFound ==> r.result.matched.None? && st.status == StatusInitial)
      && st.bindings <= r.result.bindings
    ensures s.filter != NotLongerThanRequest ==> r != Stop(Panicked)
  {
    var c := s.candidates[i];
    var working :=
      if c.recompute then s.env.getExcluded(c.prefix, s.matcher.requestPath) else st.working;
    if !Passes(s.filter, c.prefix.pathSlice, s.matcher.requestPathSlice, working) then
      Continue(st.(working := working))
    else
      var pieces := MatchPathPieces(s.env, c.prefix.pathSlice, working);
      if pieces.verdict.OutOfRange? then Stop(Panicked)
      else
        var bindings := st.bindings + pieces.bindings;
        var matched := if pieces.verdict.Hit? then Some(i) else st.matched;
        var isLast := i == |s.candidates| - 1;
        if matched.None? then
          if !isLast then Continue(ScanState(None, st.status, working, bindings))
          else Stop(Finished(None, if st.status != StatusMethodNotAllowed then StatusNotFound else st.status, bindings))
        else if s.env.isMethodAllowed(s.candidates[matched.value].allowedMethods, s.matcher.requestMethod) then
          Stop(Finished(matched, StatusOK, bindings))
        else if isLast then Stop(Finished(None, StatusMethodNotAllowed, bindings))
        else Continue(ScanState(matched, StatusMethodNotAllowed, working, bindings))
  }

  /** The loop from candidate `i` on; running off the end returns the state as
      it stands. */
  function ScanFrom(s: Search, i: nat, st: ScanState): (r: ScanResult)
    requires i <= |s.candidates|
    requires st.matched.Some? ==> st.matched.value < i
    requires st.status == StatusInitial || st.status == StatusMethodNotAllowed
    requires st.matched.Some? ==> st.status == StatusMethodNotAllowed
    ensures r.Finished? ==> r.status in {StatusOK, StatusInitial, StatusNotFound, StatusMethodNotAllowed}
    ensures r.Finished? && r.matched.Some? ==>
      r.matched.value < |s.candidates| && (r.status == StatusOK || r.status == StatusMethodNotAllowed)
    ensures r.Finished? && r.status == StatusOK ==>
      r.matched.Some? && s.env.isMethodAllowed(s.candidates[r.matched.value].allowedMethods, s.matcher.requestMethod)
    ensures r.Finished? && r.status == StatusNotFound ==> r.matched.None?
    // once 405 has been recorded, the scan never falls back to 404 or 200
    ensures st.status == StatusMethodNotAllowed && r.Finished? ==>
      r.status == StatusOK || r.status == StatusMethodNotAllowed
    // bindings written by earlier candidates are never taken back
    ensures r.Finished? ==> st.bindings <= r.bindings
    // the two working-slice filters rule out the comparator's index panic
    ensures s.filter != NotLongerThanRequest ==> r.Finished?
    decreases |s.candidates| - i
  {
    if i == |s.candidates| then Finished(st.matched, st.status, st.bindings)
    else
      match Step(s, i, st)
      case Continue(next) => ScanFrom(s, i + 1, next)
      case Stop(result) => result
  }

  function Scan(s: Search): ScanResult
  {
    ScanFrom(s, 0, InitialState(s.matcher))
  }

  function GroupSearch(env: Env, m: RouteMatcher, routers: seq<Router>, filter: LengthFilter): Search
  {
    Search(env, m, seq(|routers|, i requires 0 <= i < |routers| => GroupCandidate(routers[i])), filter)
  }

  function RouteSearch(env: Env, m: RouteMatcher, routes: seq<Route>): Search
  {
    Search(env, m, seq(|routes|, i requires 0 <= i < |routes| => RouteCandidate(routes[i])), SameLengthAsWorking)
  }

  /** `routeMatcher.Groups`, as written: the length filter compares against
      the full request slice, so a group whose stripped slice is shorter than
      its pattern can drive the comparator past the end of that slice. */
  function Groups(env: Env, m: RouteMatcher, routers: seq<Router>): (r: ScanResult)
    ensures |routers| == 0 ==> r == Finished(None, StatusInitial, [])
    ensures r.Finished? ==> r.status in {StatusOK, StatusInitial, StatusNotFound, StatusMethodNotAllowed}
    ensures r.Finished? && r.matched.Some? ==> r.matched.value < |routers|
    ensures r.Finished? && r.status == StatusOK ==>
      r.matched.Some? && env.isMethodAllowed(routers[r.matched.value].allowedMethods, m.requestMethod)
    ensures r.Finished? && r.status == StatusNotFound ==> r.matched.None?
  {
    Scan(GroupSearch(env, m, routers, NotLongerThanRequest))
  }

  /** `Groups` with the length filter applied to the working slice, the slice
      the comparator reads (match.go:45, match.go:171) and the one `Routes`
      filters on (match.go:104); it never indexes out of range. */
  function GroupsCorrected(env: Env, m: RouteMatcher, routers: seq<Router>): (r: ScanResult)
    ensures r.Finished?
    ensures |routers| == 0 ==> r == Finished(None, StatusInitial, [])
    ensures r.status in {StatusOK, StatusInitial, StatusNotFound, StatusMethodNotAllowed}
    ensures r.matched.Some? ==> r.matched.value < |routers|
    ensures r.status == StatusOK ==>
      r.matched.Some? && env.isMethodAllowed(routers[r.matched.value].allowedMethods, m.requestMethod)
    ensures r.status == StatusNotFound ==> r.matched.None?
  {
    Scan(GroupSearch(env, m, routers, NotLongerThanWorking))
  }

  /** `routeMatcher.Routes`: only routes whose pattern is exactly as long as
      the working slice are compared, so the comparator never panics. */
  function Routes(env: Env, m: RouteMatcher, routes: seq<Route>): (r: ScanResult)
    ensures r.Finished?
    ensures |routes| == 0 ==> r == Finished(None, StatusInitial, [])
    ensures r.status in {StatusOK, StatusInitial, StatusNotFound, StatusMethodNotAllowed}
    ensures r.matched.Some? ==> r.matched.value < |routes|
    ensures r.status == StatusOK ==>
      r.matched.Some? && env.isMethodAllowed(routes[r.matched.value].allowedMethods, m.requestMethod)
    ensures r.status == StatusNotFound ==> r.matched.None?
  {
    Scan(RouteSearch(env, m, routes))
  }
}

=== FILE: match_spec.dfy ===
/** An independent description of what a scan of match.go returns, stated per
    candidate index rather than as a loop, and the theorem that the scan of
    `Match` meets it. The precedence rules of `Groups` and `Routes` follow as
    corollaries. */
module MatchSpec {
  import opened Wrappers
  import opened Helpers
  import opened Pieces
  import opened Match

  function Pattern(s: Search, j: nat): seq<string>
    requires j < |s.candidates|
  {
    s.candidates[j].prefix.pathSlice
  }

  /** The request slice candidate `j` is compared with: recomputed from the
      canonical path at a candidate that asks for it, otherwise inherited from
      the candidate before, and the full request slice before any recompute. */
  function WorkingAt(s: Search, j: nat): seq<string>
    requires j < |s.candidates|
  {
    if s.candidates[j].recompute then s.env.getExcluded(s.candidates[j].prefix, s.matcher.requestPath)
    else if j == 0 then s.matcher.requestPathSlice
    else WorkingAt(s, j - 1)
  }

  function WorkingBefore(s: Search, i: nat): seq<string>
    requires i <= |s.candidates|
  {
    if i == 0 then s.matcher.requestPathSlice else WorkingAt(s, i - 1)
  }

  /** Candidate `j` passes the length filter and reaches the comparator. */
  predicate Examined(s: Search, j: nat)
    requires j < |s.candidates|
  {
    Passes(s.filter, Pattern(s, j), s.matcher.requestPathSlice, WorkingAt(s, j))
  }

  function PiecesAt(s: Search, j: nat): PieceResult
    requires j < |s.candidates|
  {
    MatchPathPieces(s.env, Pattern(s, j), WorkingAt(s, j))
  }

  /** Candidate `j` is compared and its pattern matches. */
  predicate HitAt(s: Search, j: nat)
    requires j < |s.candidates|
  {
    Examined(s, j) && PiecesAt(s, j).verdict.Hit?
  }

  /** Candidate `j` is compared and the comparator indexes out of range. */
  predicate PanicAt(s: Search, j: nat)
    requires j < |s.candidates|
  {
    Examined(s, j) && PiecesAt(s, j).verdict.OutOfRange?
  }

  predicate Allows(s: Search, j: nat)
    requires j < |s.candidates|
  {
    s.env.isMethodAllowed(s.candidates[j].allowedMethods, s.matcher.requestMethod)
  }

  /** Candidate `j` matches the path and allows the request method. */
  predicate AcceptAt(s: Search, j: nat)
    requires j < |s.candidates|
  {
    HitAt(s, j) && Allows(s, j)
  }

  /** Candidate `j` ends the scan whatever follows it. */
  predicate Decisive(s: Search, j: nat)
    requires j < |s.candidates|
  {
    AcceptAt(s, j) || PanicAt(s, j)
  }

  /** The least decisive index at or after `i`, or the number of candidates. */
  function FirstDecisiveFrom(s: Search, i: nat): (k: nat)
    requires i <= |s.candidates|
    ensures i <= k <= |s.candidates|
    ensures k < |s.candidates| ==> Decisive(s, k)
    decreases |s.candidates| - i
  {
    if i == |s.candidates| then i
    else if Decisive(s, i) then i
    else FirstDecisiveFrom(s, i + 1)
  }

  /** The greatest index below `k` whose candidate matched the path. */
  function LastHitBefore(s: Search, k: nat): (r: Option<nat>)
    requires k <= |s.candidates|
    ensures r.Some? ==> r.value < k && HitAt(s, r.value)
  {
    if k == 0 then None
    else if HitAt(s, k - 1) then Some(k - 1)
    else LastHitBefore(s, k - 1)
  }

  /** The bindings the compared candidates below `k` write, in scan order. */
  function EmittedUpTo(s: Search, k: nat): seq<Binding>
    requires k <= |s.candidates|
  {
    if k == 0 then []
    else EmittedUpTo(s, k - 1) + (if Examined(s, k - 1) then PiecesAt(s, k - 1).bindings else [])
  }

  function ExpectedFrom(s: Search, i: nat): ScanResult
    requires i <= |s.candidates|
  {
    var n := |s.candidates|;
    var k := FirstDecisiveFrom(s, i);
    if k < n then
      if PanicAt(s, k) then Panicked else Finished(Some(k), StatusOK, EmittedUpTo(s, k + 1))
    else
      var last := LastHitBefore(s, n);
      var lastExamined := n > 0 && Examined(s, n - 1);
      var status :=
        if last.Some? then StatusMethodNotAllowed
        else if lastExamined then StatusNotFound
        else StatusInitial;
      Finished(if lastExamined then None else last, status, EmittedUpTo(s, n))
  }

  /** The reference outcome: the first decisive candidate decides (a panic, or
      success with that candidate); with none, 405 if any candidate matched
      the path, else 404 when the last candidate was compared and 200 when it
      was skipped; `matched` survives only when the last candidate was skipped. */
  function Expected(s: Search): ScanResult
  {
    ExpectedFrom(s, 0)
  }

  /** The loop state before candidate `i` in a scan that has met no decisive
      candidate yet. */
  predicate Consistent(s: Search, i: nat, st: ScanState)
  {
    && i <= |s.candidates|
    && st.working == WorkingBefore(s, i)
    && st.bindings == EmittedUpTo(s, i)
    && st.matched == LastHitBefore(s, i)
    && st.status == CarriedStatus(st.matched)
    && QuietBelow(s, i)
  }

  /** No candidate below `k` is decisive. */
  predicate QuietBelow(s: Search, k: nat)
    requires k <= |s.candidates|
  {
    k == 0 || (!Decisive(s, k - 1) && QuietBelow(s, k - 1))
  }

  lemma {:induction false} QuietBelowMeans(s: Search, k: nat)
    requires k <= |s.candidates|
    ensures QuietBelow(s, k) <==> forall j :: 0 <= j < k ==> !Decisive(s, j)
  {
    if k > 0 {
      QuietBelowMeans(s, k - 1);
    }
  }

  /** `FirstDecisiveFrom(s, i)` is the least decisive index at or after `i`. */
  lemma {:induction false} FirstDecisiveFromMeans(s: Search, i: nat)
    requires i <= |s.candidates|
    ensures forall j :: i <= j < FirstDecisiveFrom(s, i) ==> !Decisive(s, j)
    decreases |s.candidates| - i
  {
    if i < |s.candidates| && !Decisive(s, i) {
      FirstDecisiveFromMeans(s, i + 1);
      forall j | i <= j < FirstDecisiveFrom(s, i)
        ensures !Decisive(s, j)
      {
        if j > i {
          assert i + 1 <= j < FirstDecisiveFrom(s, i + 1);
        }
      }
    }
  }

  /** `LastHitBefore(s, k)` is the greatest hit below `k`. */
  lemma {:induction false} LastHitBeforeMeans(s: Search, k: nat)
    requires k <= |s.candidates|
    ensures LastHitBefore(s, k).Some? ==> forall j :: LastHitBefore(s, k).value < j < k ==> !HitAt(s, j)
    ensures LastHitBefore(s, k).None? ==> forall j :: 0 <= j < k ==> !HitAt(s, j)
  {
    if k > 0 && !HitAt(s, k - 1) {
      LastHitBeforeMeans(s, k - 1);
    }
  }

  /** The status the loop carries for a given sticky candidate. */
  function CarriedStatus(matched: Option<nat>): int
  {
    if matched.Some? then StatusMethodNotAllowed else StatusInitial
  }

  lemma StepSkips(s: Search, i: nat, st: ScanState)
    requires i < |s.candidates| && Consistent(s, i, st)
    requires !Examined(s, i)
    ensures Step(s, i, st) == Continue(st.(working := WorkingAt(s, i)))
  {
  }

  lemma StepPanics(s: Search, i: nat, st: ScanState)
    requires i < |s.candidates| && Consistent(s, i, st)
    requires PanicAt(s, i)
    ensures Step(s, i, st) == Stop(Panicked)
  {
  }

  lemma StepAccepts(s: Search, i: nat, st: ScanState)
    requires i < |s.candidates| && Consistent(s, i, st)
    requires AcceptAt(s, i)
    ensures Step(s, i, st) == Stop(Finished(Some(i), StatusOK, st.bindings + PiecesAt(s, i).bindings))
  {
  }

  lemma StepPasses(s: Search, i: nat, st: ScanState)
    requires i < |s.candidates| && Consistent(s, i, st)
    requires Examined(s, i) && !Decisive(s, i)
    ensures var matched := if HitAt(s, i) then Some(i) else st.matched;
            var bindings := st.bindings + PiecesAt(s, i).bindings;
            Step(s, i, st) ==
              if i == |s.candidates| - 1
              then Stop(Finished(None, if matched.Some? then StatusMethodNotAllowed else StatusNotFound, bindings))
              else Continue(ScanState(matched, CarriedStatus(matched), WorkingAt(s, i), bindings))
  {
    if st.matched.Some? {
      QuietBelowMeans(s, i);
      assert HitAt(s, st.matched.value) && !Decisive(s, st.matched.value);
    }
  }

  lemma SkipKeepsConsistent(s: Search, i: nat, st: ScanState)
    requires i < |s.candidates| && Consistent(s, i, st)
    requires !Examined(s, i)
    ensures Consistent(s, i + 1, st.(working := WorkingAt(s, i)))
  {
    assert LastHitBefore(s, i + 1) == LastHitBefore(s, i);
    assert EmittedUpTo(s, i + 1) == EmittedUpTo(s, i) + [];
  }

  lemma EmittedUpToStep(s: Search, i: nat)
    requires i < |s.candidates|
    ensures EmittedUpTo(s, i + 1) == EmittedUpTo(s, i) + (if Examined(s, i) then PiecesAt(s, i).bindings else [])
  {
  }

  lemma LastHitBeforeStep(s: Search, i: nat)
    requires i < |s.candidates|
    ensures LastHitBefore(s, i + 1) == if HitAt(s, i) then Some(i) else LastHitBefore(s, i)
  {
  }

  lemma PassKeepsConsistent(s: Search, i: nat, st: ScanState)
    requires i < |s.candidates| && Consistent(s, i, st)
    requires Examined(s, i) && !Decisive(s, i)
    ensures var matched := if HitAt(s, i) then Some(i) else st.matched;
            Consistent(s, i + 1, ScanState(matched, CarriedStatus(matched), WorkingAt(s, i),
                                           st.bindings + PiecesAt(s, i).bindings))
  {
    EmittedUpToStep(s, i);
    LastHitBeforeStep(s, i);
  }

  /** A candidate that is not decisive hands the reference outcome on. */
  lemma ExpectedFromQuiet(s: Search, i: nat)
    requires i < |s.candidates| && !Decisive(s, i)
    ensures ExpectedFrom(s, i) == ExpectedFrom(s, i + 1)
  {
    assert FirstDecisiveFrom(s, i) == FirstDecisiveFrom(s, i + 1);
  }

  /** A decisive candidate fixes the reference outcome. */
  lemma ExpectedFromDecisive(s: Search, i: nat)
    requires i < |s.candidates| && Decisive(s, i)
    ensures ExpectedFrom(s, i) ==
      if PanicAt(s, i) then Panicked else Finished(Some(i), StatusOK, EmittedUpTo(s, i + 1))
  {
    assert FirstDecisiveFrom(s, i) == i;
  }

  /** The reference outcome when no candidate is decisive. */
  lemma ExpectedAtEnd(s: Search, i: nat)
    requires i + 1 == |s.candidates|
    ensures ExpectedFrom(s, i + 1) ==
      var last := LastHitBefore(s, i + 1);
      Finished(if Examined(s, i) then None else last,
               if last.Some? then StatusMethodNotAllowed else if Examined(s, i) then StatusNotFound else StatusInitial,
               EmittedUpTo(s, i + 1))
  {
    assert FirstDecisiveFrom(s, i + 1) == i + 1;
  }

  /** Running off the end after a skipped last candidate. */
  lemma EndAfterSkip(s: Search, i: nat, st: ScanState)
    requires i + 1 == |s.candidates| && !Examined(s, i)
    requires st.matched == LastHitBefore(s, i + 1) && st.status == CarriedStatus(st.matched)
    requires st.bindings == EmittedUpTo(s, i + 1)
    ensures ScanFrom(s, i + 1, st) == ExpectedFrom(s, i + 1)
  {
    ExpectedAtEnd(s, i);
  }

  /** Leaving from a compared, non-decisive last candidate. */
  lemma EndAfterPass(s: Search, i: nat, matched: Option<nat>, bindings: seq<Binding>)
    requires i + 1 == |s.candidates| && Examined(s, i)
    requires matched == LastHitBefore(s, i + 1) && bindings == EmittedUpTo(s, i + 1)
    ensures Finished(None, if matched.Some? then StatusMethodNotAllowed else StatusNotFound, bindings)
      == ExpectedFrom(s, i + 1)
  {
    ExpectedAtEnd(s, i);
  }

  /** The scan and the reference agree at a skipped candidate, given that
      they agree from the next one on. */
  lemma SkipMeetsReference(s: Search, i: nat, st: ScanState)
    requires i < |s.candidates| && Consistent(s, i, st)
    requires !Examined(s, i)
    requires i + 1 < |s.candidates| ==>
      ScanFrom(s, i + 1, st.(working := WorkingAt(s, i))) == ExpectedFrom(s, i + 1)
    ensures ScanFrom(s, i, st) == ExpectedFrom(s, i)
  {
    StepSkips(s, i, st);
    ExpectedFromQuiet(s, i);
    var next := st.(working := WorkingAt(s, i));
    assert ScanFrom(s, i, st) == ScanFrom(s, i + 1, next);
    if i + 1 == |s.candidates| {
      SkipKeepsConsistent(s, i, st);
      EndAfterSkip(s, i, next);
    }
  }

  /** The scan and the reference agree at a decisive candidate. */
  lemma DecisiveMeetsReference(s: Search, i: nat, st: ScanState)
    requires i < |s.candidates| && Consistent(s, i, st)
    requires Decisive(s, i)
    ensures ScanFrom(s, i, st) == ExpectedFrom(s, i)
  {
    ExpectedFromDecisive(s, i);
    if PanicAt(s, i) {
      StepPanics(s, i, st);
    } else {
      StepAccepts(s, i, st);
      EmittedUpToStep(s, i);
    }
  }

  /** The scan and the reference agree at a compared candidate that is not
      decisive, given that they agree from the next one on. */
  lemma PassMeetsReference(s: Search, i: nat, st: ScanState)
    requires i < |s.candidates| && Consistent(s, i, st)
    requires Examined(s, i) && !Decisive(s, i)
    requires var matched := if HitAt(s, i) then Some(i) else st.matched;
      i + 1 < |s.candidates| ==>
      ScanFrom(s, i + 1, ScanState(matched, CarriedStatus(matched), WorkingAt(s, i),
                                   st.bindings + PiecesAt(s, i).bindings))
        == ExpectedFrom(s, i + 1)
    ensures ScanFrom(s, i, st) == ExpectedFrom(s, i)
  {
    StepPasses(s, i, st);
    ExpectedFromQuiet(s, i);
    var matched := if HitAt(s, i) then Some(i) else st.matched;
    var bindings := st.bindings + PiecesAt(s, i).bindings;
    var next := ScanState(matched, CarriedStatus(matched), WorkingAt(s, i), bindings);
    if i + 1 < |s.candidates| {
      assert ScanFrom(s, i, st) == ScanFrom(s, i + 1, next);
    } else {
      PassKeepsConsistent(s, i, st);
      EndAfterPass(s, i, matched, bindings);
    }
  }

  lemma {:induction false} ScanFromMeetsReference(s: Search, i: nat, st: ScanState)
    requires i < |s.candidates| && Consistent(s, i, st)
    ensures ScanFrom(s, i, st) == ExpectedFrom(s, i)
    decreases |s.candidates| - i
  {
    if !Examined(s, i) {
      if i + 1 < |s.candidates| {
        SkipKeepsConsistent(s, i, st);
        ScanFromMeetsReference(s, i + 1, st.(working := WorkingAt(s, i)));
      }
      SkipMeetsReference(s, i, st);
    } else if Decisive(s, i) {
      DecisiveMeetsReference(s, i, st);
    } else {
      var matched := if HitAt(s, i) then Some(i) else st.matched;
      if i + 1 < |s.candidates| {
        PassKeepsConsistent(s, i, st);
        ScanFromMeetsReference(s, i + 1, ScanState(matched, CarriedStatus(matched), WorkingAt(s, i),
                                                   st.bindings + PiecesAt(s, i).bindings));
      }
      PassMeetsReference(s, i, st);
    }
  }

  /** The scan of match.go computes the reference outcome. */
  lemma ScanMeetsReference(s: Search)
    ensures Scan(s) == Expected(s)
  {
    if |s.candidates| > 0 {
      assert Consistent(s, 0, InitialState(s.matcher));
      ScanFromMeetsReference(s, 0, InitialState(s.matcher));
    }
  }

  // ---------------------------------------------------------------------------
  // Precedence rules shared by Groups and Routes

  /** `FirstDecisiveFrom(s, 0)` is the only index with its defining property. */
  lemma FirstDecisiveUnique(s: Search, k: nat)
    requires k <= |s.candidates|
    requires forall j :: 0 <= j < k ==> !Decisive(s, j)
    requires k < |s.candidates| ==> Decisive(s, k)
    ensures FirstDecisiveFrom(s, 0) == k
  {
    FirstDecisiveFromMeans(s, 0);
  }

  /** Status 0 comes back together with the lowest-index candidate that is
      compared, matches the path and allows the method, provided no earlier
      candidate panicked; that candidate's bindings and those of the candidates
      compared before it are written, and nothing after it is looked at. */
  lemma FirstAllowedMatchWins(s: Search, k: nat)
    ensures (Scan(s).Finished? && Scan(s).status == StatusOK && Scan(s).matched == Some(k))
        <==> (k < |s.candidates| && AcceptAt(s, k) && forall j :: 0 <= j < k ==> !Decisive(s, j))
    ensures k < |s.candidates| && AcceptAt(s, k) && (forall j :: 0 <= j < k ==> !Decisive(s, j)) ==>
      Scan(s).bindings == EmittedUpTo(s, k + 1)
  {
    ScanMeetsReference(s);
    var f := FirstDecisiveFrom(s, 0);
    FirstDecisiveFromMeans(s, 0);
    if k < |s.candidates| && AcceptAt(s, k) && (forall j :: 0 <= j < k ==> !Decisive(s, j)) {
      FirstDecisiveUnique(s, k);
    }
  }

  /** The comparator's index panic ends the scan exactly when it happens at a
      compared candidate before any candidate was accepted. */
  lemma PanicOutcome(s: Search)
    ensures Scan(s).Panicked? <==>
      exists k :: 0 <= k < |s.candidates| && PanicAt(s, k) && forall j :: 0 <= j < k ==> !Decisive(s, j)
  {
    ScanMeetsReference(s);
    var f := FirstDecisiveFrom(s, 0);
    FirstDecisiveFromMeans(s, 0);
    if Scan(s).Panicked? {
      assert f < |s.candidates| && PanicAt(s, f);
    }
    if exists k :: 0 <= k < |s.candidates| && PanicAt(s, k) && forall j :: 0 <= j < k ==> !Decisive(s, j) {
      var k :| 0 <= k < |s.candidates| && PanicAt(s, k) && forall j :: 0 <= j < k ==> !Decisive(s, j);
      FirstDecisiveUnique(s, k);
    }
  }

  /** With no hit and no panic anywhere, no candidate is decisive. */
  lemma QuietScan(s: Search)
    requires forall j :: 0 <= j < |s.candidates| ==> !HitAt(s, j) && !PanicAt(s, j)
    ensures FirstDecisiveFrom(s, 0) == |s.candidates|
    ensures LastHitBefore(s, |s.candidates|) == None
  {
    FirstDecisiveUnique(s, |s.candidates|);
  }

  /** 404 is returned only when the last candidate is compared and no
      candidate at all has matched the path; it never carries a candidate. */
  lemma NotFoundOnlyWithoutAnyMatch(s: Search)
    ensures Scan(s).Finished? && Scan(s).status == StatusNotFound <==>
      && 0 < |s.candidates| && Examined(s, |s.candidates| - 1)
      && forall j :: 0 <= j < |s.candidates| ==> !HitAt(s, j) && !PanicAt(s, j)
    ensures Scan(s).Finished? && Scan(s).status == StatusNotFound ==> Scan(s).matched.None?
  {
    ScanMeetsReference(s);
    var n := |s.candidates|;
    var f := FirstDecisiveFrom(s, 0);
    FirstDecisiveFromMeans(s, 0);
    LastHitBeforeMeans(s, n);
    if Scan(s).Finished? && Scan(s).status == StatusNotFound {
      assert f == n;
      assert LastHitBefore(s, n).None?;
      forall j | 0 <= j < n
        ensures !HitAt(s, j) && !PanicAt(s, j)
      {
        assert !Decisive(s, j);
      }
    }
    if forall j :: 0 <= j < n ==> !HitAt(s, j) && !PanicAt(s, j) {
      QuietScan(s);
    }
  }

  /** 405 is returned exactly when some candidate matched the path and none
      was decisive, however many non-matching candidates follow: a 405 is
      never turned into 404. The scan returns `nil` with it when the last
      candidate was compared, and the last matching candidate when the last
      candidate was skipped by the length filter. */
  lemma MethodNotAllowedNeverDowngraded(s: Search)
    ensures Scan(s).Finished? && Scan(s).status == StatusMethodNotAllowed <==>
      && (forall j :: 0 <= j < |s.candidates| ==> !Decisive(s, j))
      && (exists j :: 0 <= j < |s.candidates| && HitAt(s, j))
    ensures Scan(s).Finished? && Scan(s).status == StatusMethodNotAllowed ==>
      Scan(s).matched ==
        if Examined(s, |s.candidates| - 1) then None else LastHitBefore(s, |s.candidates|)
  {
    ScanMeetsReference(s);
    var n := |s.candidates|;
    var f := FirstDecisiveFrom(s, 0);
    FirstDecisiveFromMeans(s, 0);
    LastHitBeforeMeans(s, n);
    if Scan(s).Finished? && Scan(s).status == StatusMethodNotAllowed {
      assert f == n;
      assert LastHitBefore(s, n).Some?;
      assert HitAt(s, LastHitBefore(s, n).value);
    }
    if (forall j :: 0 <= j < n ==> !Decisive(s, j)) && (exists j :: 0 <= j < n && HitAt(s, j)) {
      FirstDecisiveUnique(s, n);
      var j :| 0 <= j < n && HitAt(s, j);
      assert LastHitBefore(s, n).Some?;
    }
  }

  /** The scan leaves with the initial status 200 exactly when there are no
      candidates, or the last one was skipped by the length filter and no
      candidate matched the path; `matched` is then `nil`. */
  lemma InitialStatusOnlyWhenLastSkipped(s: Search)
    ensures Scan(s).Finished? && Scan(s).status == StatusInitial <==>
      && (|s.candidates| == 0 || !Examined(s, |s.candidates| - 1))
      && forall j :: 0 <= j < |s.candidates| ==> !HitAt(s, j) && !PanicAt(s, j)
    ensures Scan(s).Finished? && Scan(s).status == StatusInitial ==> Scan(s).matched.None?
    ensures |s.candidates| == 0 ==> Scan(s) == Finished(None, StatusInitial, [])
  {
    ScanMeetsReference(s);
    var n := |s.candidates|;
    var f := FirstDecisiveFrom(s, 0);
    FirstDecisiveFromMeans(s, 0);
    LastHitBeforeMeans(s, n);
    if Scan(s).Finished? && Scan(s).status == StatusInitial {
      assert f == n;
      assert LastHitBefore(s, n).None?;
      forall j | 0 <= j < n
        ensures !HitAt(s, j) && !PanicAt(s, j)
      {
        assert !Decisive(s, j);
      }
    }
    if forall j :: 0 <= j < n ==> !HitAt(s, j) && !PanicAt(s, j) {
      QuietScan(s);
    }
  }

  /** A scan that does not succeed has written the bindings of every compared
      candidate, matched or not: nothing is undone. */
  lemma FailedScanKeepsAllBindings(s: Search)
    ensures Scan(s).Finished? && Scan(s).status != StatusOK ==>
      Scan(s).bindings == EmittedUpTo(s, |s.candidates|)
  {
    ScanMeetsReference(s);
  }

  // ---------------------------------------------------------------------------
  // The working slice and the candidates that are never looked at

  /** The working slice of candidate `j` is the full request slice when no
      candidate up to `j` recomputes it, and otherwise the slice computed by
      the latest candidate at or before `j` that does. */
  lemma {:induction false} WorkingSliceIsLatestRecompute(s: Search, j: nat)
    requires j < |s.candidates|
    ensures (forall i :: 0 <= i <= j ==> !s.candidates[i].recompute) ==>
      WorkingAt(s, j) == s.matcher.requestPathSlice
    ensures forall k ::
      (0 <= k <= j && s.candidates[k].recompute && forall i :: k < i <= j ==> !s.candidates[i].recompute) ==>
      WorkingAt(s, j) == s.env.getExcluded(s.candidates[k].prefix, s.matcher.requestPath)
  {
    if s.candidates[j].recompute {
      forall k | 0 <= k <= j && s.candidates[k].recompute && forall i :: k < i <= j ==> !s.candidates[i].recompute
        ensures k == j
      {
      }
    } else if j == 0 {
    } else {
      WorkingSliceIsLatestRecompute(s, j - 1);
      assert WorkingAt(s, j) == WorkingAt(s, j - 1);
      forall k | 0 <= k <= j && s.candidates[k].recompute && forall i :: k < i <= j ==> !s.candidates[i].recompute
        ensures WorkingAt(s, j) == s.env.getExcluded(s.candidates[k].prefix, s.matcher.requestPath)
      {
        assert k < j;
        assert forall i :: k < i <= j - 1 ==> !s.candidates[i].recompute;
      }
    }
  }

  lemma {:induction false} WorkingAtExtend(s: Search, more: seq<Candidate>, j: nat)
    requires j < |s.candidates|
    ensures WorkingAt(s.(candidates := s.candidates + more), j) == WorkingAt(s, j)
  {
    var t := s.(candidates := s.candidates + more);
    assert t.candidates[j] == s.candidates[j];
    if j > 0 {
      WorkingAtExtend(s, more, j - 1);
    }
  }

  lemma {:induction false} EmittedUpToExtend(s: Search, more: seq<Candidate>, k: nat)
    requires k <= |s.candidates|
    ensures EmittedUpTo(s.(candidates := s.candidates + more), k) == EmittedUpTo(s, k)
  {
    var t := s.(candidates := s.candidates + more);
    if k > 0 {
      assert t.candidates[k - 1] == s.candidates[k - 1];
      WorkingAtExtend(s, more, k - 1);
      assert Examined(t, k - 1) == Examined(s, k - 1);
      assert PiecesAt(t, k - 1) == PiecesAt(s, k - 1);
      EmittedUpToExtend(s, more, k - 1);
      assert EmittedUpTo(t, k)
          == EmittedUpTo(t, k - 1) + (if Examined(t, k - 1) then PiecesAt(t, k - 1).bindings else []);
    }
  }

  /** Once a candidate is decisive, the candidates registered after it are
      never examined: appending any further candidates leaves the outcome,
      bindings included, unchanged. */
  lemma LaterCandidatesIgnored(s: Search, more: seq<Candidate>, k: nat)
    requires k < |s.candidates| && Decisive(s, k)
    requires forall j :: 0 <= j < k ==> !Decisive(s, j)
    ensures Scan(s.(candidates := s.candidates + more)) == Scan(s)
  {
    var t := s.(candidates := s.candidates + more);
    forall j | 0 <= j <= k
      ensures Decisive(t, j) == Decisive(s, j)
      ensures PanicAt(t, j) == PanicAt(s, j)
    {
      assert t.candidates[j] == s.candidates[j];
      WorkingAtExtend(s, more, j);
    }
    FirstDecisiveUnique(s, k);
    FirstDecisiveUnique(t, k);
    EmittedUpToExtend(s, more, k + 1);
    ScanMeetsReference(s);
    ScanMeetsReference(t);
  }

  // ---------------------------------------------------------------------------
  // What distinguishes the two scans

  /** In `Routes` a route's working slice is recomputed exactly when it sits
      under a group, a route is compared only when its pattern has exactly the
      working slice's length, the comparator never panics, and a route matches
      when every segment agrees (or both slices are empty). */
  lemma RouteScanIsExactMatch(env: Env, m: RouteMatcher, routes: seq<Route>, j: nat)
    requires j < |routes|
    ensures RouteSearch(env, m, routes).candidates[j].recompute == routes[j].isUnderGroup
    ensures Examined(RouteSearch(env, m, routes), j) <==>
      |routes[j].prefix.pathSlice| == |WorkingAt(RouteSearch(env, m, routes), j)|
    ensures !PanicAt(RouteSearch(env, m, routes), j)
    ensures HitAt(RouteSearch(env, m, routes), j) <==>
      var pattern := routes[j].prefix.pathSlice;
      var working := WorkingAt(RouteSearch(env, m, routes), j);
      && |pattern| == |working|
      && (BothEmpty(env, pattern, working) || (|pattern| > 0 && AgreeBetween(env, pattern, working, 0, |pattern|)))
  {
  }

  /** In `Groups` a group's working slice is recomputed exactly when its
      exclude count is positive, a group is compared when its pattern is no
      longer than the FULL request slice, and it matches as a prefix of the
      working slice; the comparator panics when the working slice is shorter
      than the pattern but agrees with it as far as it goes. */
  lemma GroupScanIsPrefixMatch(env: Env, m: RouteMatcher, routers: seq<Router>, j: nat)
    requires j < |routers|
    ensures GroupSearch(env, m, routers, NotLongerThanRequest).candidates[j].recompute
        == (routers[j].prefix.excludeCount > 0)
    ensures Examined(GroupSearch(env, m, routers, NotLongerThanRequest), j) <==>
      |routers[j].prefix.pathSlice| <= |m.requestPathSlice|
    ensures HitAt(GroupSearch(env, m, routers, NotLongerThanRequest), j) <==>
      var pattern := routers[j].prefix.pathSlice;
      var working := WorkingAt(GroupSearch(env, m, routers, NotLongerThanRequest), j);
      && |pattern| <= |m.requestPathSlice|
      && (BothEmpty(env, pattern, working)
          || (0 < |pattern| <= |working| && AgreeBetween(env, pattern, working, 0, |pattern|)))
    ensures PanicAt(GroupSearch(env, m, routers, NotLongerThanRequest), j) <==>
      var pattern := routers[j].prefix.pathSlice;
      var working := WorkingAt(GroupSearch(env, m, routers, NotLongerThanRequest), j);
      && |working| < |pattern| <= |m.requestPathSlice|
      && !BothEmpty(env, pattern, working)
      && AgreeBetween(env, pattern, working, 0, |working|)
  {
  }
}

=== FILE: pieces.dfy ===
/** `routeMatcher.matchPathPieces` (match.go:162-196): the segment-by-segment
    comparison of a pattern with a request slice, and the variable bindings it
    hands to `addVarToContext` on the way. */
module Pieces {
  import opened Wrappers
  import opened Helpers

  /** One call of `addVarToContext`: a variable name and the request segment
      bound to it. */
  datatype Binding = Binding(name: string, value: string)

  /** How a comparison ends: `Hit` (returns true), `Miss` (returns false), or
      `OutOfRange`, the Go index panic when the pattern runs past the end of
      the request slice. */
  datatype Verdict = Hit | Miss | OutOfRange

  datatype PieceResult = PieceResult(verdict: Verdict, bindings: seq<Binding>)

  /** The early exit of match.go:164: both slices are "empty". */
  predicate BothEmpty(env: Env, pattern: seq<string>, request: seq<string>)
  {
    env.isPathSliceEmpty(pattern) && env.isPathSliceEmpty(request)
  }

  /** A pattern segment accepts a request segment when they are equal or the
      pattern segment is a variable. */
  predicate Agrees(env: Env, piece: string, requestPiece: string)
  {
    piece == requestPiece || env.isRouteVar(piece).Some?
  }

  /** Every position in [lo, hi) agrees. */
  predicate AgreeBetween(env: Env, pattern: seq<string>, request: seq<string>, lo: nat, hi: nat)
    requires lo <= hi <= |pattern| && hi <= |request|
  {
    forall k :: lo <= k < hi ==> Agrees(env, pattern[k], request[k])
  }

  /** What one position contributes to the bindings: a binding exactly when the
      segments differ and the pattern segment is a variable. */
  function Emitted(env: Env, piece: string, requestPiece: string): seq<Binding>
  {
    if piece != requestPiece && env.isRouteVar(piece).Some?
    then [Binding(env.isRouteVar(piece).value, requestPiece)]
    else []
  }

  /** Reference definition of the bindings of positions [lo, hi), in position
      order, built from the right end. */
  function VarBindings(env: Env, pattern: seq<string>, request: seq<string>, lo: nat, hi: nat): seq<Binding>
    requires lo <= hi <= |pattern| && hi <= |request|
    decreases hi
  {
    if hi == lo then []
    else VarBindings(env, pattern, request, lo, hi - 1) + Emitted(env, pattern[hi - 1], request[hi - 1])
  }

  /** The first position at or after `i` where the comparison must stop: a
      disagreeing position, or the end of the shorter slice. */
  function FirstDisagreement(env: Env, pattern: seq<string>, request: seq<string>, i: nat): (d: nat)
    requires i <= |pattern| && i <= |request|
    ensures i <= d <= |pattern| && d <= |request|
    ensures AgreeBetween(env, pattern, request, i, d)
    ensures d < |pattern| && d < |request| ==> !Agrees(env, pattern[d], request[d])
    decreases |pattern| - i
  {
    if i == |pattern| || i == |request| || !Agrees(env, pattern[i], request[i]) then i
    else FirstDisagreement(env, pattern, request, i + 1)
  }

  lemma {:induction false} VarBindingsFirst(env: Env, pattern: seq<string>, request: seq<string>, lo: nat, hi: nat)
    requires lo < hi <= |pattern| && hi <= |request|
    ensures VarBindings(env, pattern, request, lo, hi)
         == Emitted(env, pattern[lo], request[lo]) + VarBindings(env, pattern, request, lo + 1, hi)
    decreases hi
  {
    if hi == lo + 1 {
    } else {
      VarBindingsFirst(env, pattern, request, lo, hi - 1);
    }
  }

  /** The loop of match.go:169-194 from position `i` on. */
  function ComparePieces(env: Env, pattern: seq<string>, request: seq<string>, i: nat): (r: PieceResult)
    requires i <= |pattern| && i <= |request|
    ensures r.verdict.Hit? <==> i < |pattern| <= |request| && AgreeBetween(env, pattern, request, i, |pattern|)
    ensures r.verdict.OutOfRange? <==> |request| < |pattern| && AgreeBetween(env, pattern, request, i, |request|)
    ensures r.bindings == VarBindings(env, pattern, request, i, FirstDisagreement(env, pattern, request, i))
    decreases |pattern| - i
  {
    if i == |pattern| then PieceResult(Miss, [])
    else if i == |request| then PieceResult(OutOfRange, [])
    else
      var piece := pattern[i];
      var requestPiece := request[i];
      if piece != requestPiece && env.isRouteVar(piece).None? then PieceResult(Miss, [])
      else
        var emitted := Emitted(env, piece, requestPiece);
        if i == |pattern| - 1 then PieceResult(Hit, emitted)
        else
          var rest := ComparePieces(env, pattern, request, i + 1);
          VarBindingsFirst(env, pattern, request, i, FirstDisagreement(env, pattern, request, i));
          PieceResult(rest.verdict, emitted + rest.bindings)
  }

  /** `matchPathPieces`: a prefix comparison of `pattern` against `request`. */
  function MatchPathPieces(env: Env, pattern: seq<string>, request: seq<string>): (r: PieceResult)
    ensures r.verdict.Hit? <==>
      || BothEmpty(env, pattern, request)
      || (0 < |pattern| <= |request| && AgreeBetween(env, pattern, request, 0, |pattern|))
    ensures r.verdict.OutOfRange? <==>
      !BothEmpty(env, pattern, request) && |request| < |pattern| && AgreeBetween(env, pattern, request, 0, |request|)
    ensures BothEmpty(env, pattern, request) ==> r.bindings == []
    ensures !BothEmpty(env, pattern, request) ==>
      r.bindings == VarBindings(env, pattern, request, 0, FirstDisagreement(env, pattern, request, 0))
  {
    if BothEmpty(env, pattern, request) then PieceResult(Hit, [])
    else ComparePieces(env, pattern, request, 0)
  }

  // ---------------------------------------------------------------------------
  // Properties of the comparator

  /** An empty pattern matches only through the early exit: unless both
      slices count as empty, the loop body never runs and the result is false
      with no bindings. */
  lemma EmptyPatternMatchesOnlyEmpty(env: Env, request: seq<string>)
    ensures MatchPathPieces(env, [], request).verdict.Hit? <==> BothEmpty(env, [], request)
    ensures !BothEmpty(env, [], request) ==> MatchPathPieces(env, [], request) == PieceResult(Miss, [])
  {
  }

  /** When "empty" means zero segments, an empty pattern matches the empty
      request and nothing else. */
  lemma EmptyPatternMatchesOnlyEmptySlice(env: Env, request: seq<string>)
    requires SaneEmptiness(env)
    ensures MatchPathPieces(env, [], request).verdict.Hit? <==> |request| == 0
    ensures |request| > 0 ==> MatchPathPieces(env, [], request) == PieceResult(Miss, [])
  {
    EmptyPatternMatchesOnlyEmpty(env, request);
  }

  /** With a pattern no longer than the request, the comparison never indexes
      out of range and succeeds exactly when every pattern position equals the
      request segment or is a variable. */
  lemma PrefixMatch(env: Env, pattern: seq<string>, request: seq<string>)
    requires |pattern| <= |request|
    ensures !MatchPathPieces(env, pattern, request).verdict.OutOfRange?
    ensures MatchPathPieces(env, pattern, request).verdict.Hit? <==>
      || BothEmpty(env, pattern, request)
      || (|pattern| > 0 && forall k :: 0 <= k < |pattern| ==> pattern[k] == request[k] || env.isRouteVar(pattern[k]).Some?)
  {
  }

  lemma {:induction false} FirstDisagreementExtend(env: Env, pattern: seq<string>, request: seq<string>, extra: seq<string>, i: nat)
    requires i <= |pattern| <= |request|
    ensures FirstDisagreement(env, pattern, request + extra, i) == FirstDisagreement(env, pattern, request, i)
    decreases |pattern| - i
  {
    var longer := request + extra;
    if i == |pattern| {
    } else {
      assert longer[i] == request[i];
      if Agrees(env, pattern[i], request[i]) {
        FirstDisagreementExtend(env, pattern, request, extra, i + 1);
      }
    }
  }

  lemma {:induction false} VarBindingsExtend(env: Env, pattern: seq<string>, request: seq<string>, extra: seq<string>, lo: nat, hi: nat)
    requires lo <= hi <= |pattern| && hi <= |request|
    ensures VarBindings(env, pattern, request + extra, lo, hi) == VarBindings(env, pattern, request, lo, hi)
    decreases hi
  {
    if hi > lo {
      assert (request + extra)[hi - 1] == request[hi - 1];
      VarBindingsExtend(env, pattern, request, extra, lo, hi - 1);
    }
  }

  /** Request segments past the end of a non-empty pattern play no part: the
      verdict and the bindings are the same with or without them. */
  lemma TrailingSegmentsIgnored(env: Env, pattern: seq<string>, request: seq<string>, extra: seq<string>)
    requires !env.isPathSliceEmpty(pattern)
    requires |pattern| <= |request|
    ensures MatchPathPieces(env, pattern, request + extra) == MatchPathPieces(env, pattern, request)
  {
    var longer := request + extra;
    assert AgreeBetween(env, pattern, longer, 0, |pattern|) == AgreeBetween(env, pattern, request, 0, |pattern|) by {
      forall k | 0 <= k < |pattern|
        ensures longer[k] == request[k]
      {
      }
    }
    FirstDisagreementExtend(env, pattern, request, extra, 0);
    VarBindingsExtend(env, pattern, request, extra, 0, FirstDisagreement(env, pattern, request, 0));
  }

  lemma {:induction false} VarBindingsNone(env: Env, pattern: seq<string>, request: seq<string>, lo: nat, hi: nat)
    requires lo <= hi <= |pattern| && hi <= |request|
    requires forall k :: lo <= k < hi ==> Emitted(env, pattern[k], request[k]) == []
    ensures VarBindings(env, pattern, request, lo, hi) == []
    decreases hi
  {
    if hi > lo {
      VarBindingsNone(env, pattern, request, lo, hi - 1);
    }
  }

  /** A pattern that equals the start of the request segment for segment binds
      nothing, even where a pattern segment is itself written like a variable. */
  lemma LiteralMatchBindsNothing(env: Env, pattern: seq<string>, request: seq<string>)
    requires |pattern| <= |request| && pattern == request[..|pattern|]
    ensures MatchPathPieces(env, pattern, request).verdict.Hit? <==> |pattern| > 0 || BothEmpty(env, pattern, request)
    ensures MatchPathPieces(env, pattern, request).bindings == []
  {
    forall k | 0 <= k < |pattern|
      ensures pattern[k] == request[k]
    {
      assert request[..|pattern|][k] == request[k];
    }
    if !BothEmpty(env, pattern, request) {
      VarBindingsNone(env, pattern, request, 0, FirstDisagreement(env, pattern, request, 0));
    }
  }

  /** A pattern without variable segments binds nothing, whatever the outcome. */
  lemma LiteralPatternBindsNothing(env: Env, pattern: seq<string>, request: seq<string>)
    requires forall k :: 0 <= k < |pattern| ==> env.isRouteVar(pattern[k]).None?
    ensures MatchPathPieces(env, pattern, request).bindings == []
  {
    if !BothEmpty(env, pattern, request) {
      VarBindingsNone(env, pattern, request, 0, FirstDisagreement(env, pattern, request, 0));
    }
  }

  /** A binding stems from a position in [lo, hi) where the pattern segment
      differs from the request segment and is a variable; it carries that
      variable's name and the request segment. */
  ghost predicate FromVariable(env: Env, pattern: seq<string>, request: seq<string>, lo: nat, hi: nat, b: Binding)
    requires hi <= |pattern| && hi <= |request|
  {
    exists k :: lo <= k < hi && pattern[k] != request[k]
      && env.isRouteVar(pattern[k]) == Some(b.name) && b.value == request[k]
  }

  lemma {:induction false} VarBindingsFromVariables(env: Env, pattern: seq<string>, request: seq<string>, lo: nat, hi: nat)
    requires lo <= hi <= |pattern| && hi <= |request|
    ensures forall n :: 0 <= n < |VarBindings(env, pattern, request, lo, hi)| ==>
      FromVariable(env, pattern, request, lo, hi, VarBindings(env, pattern, request, lo, hi)[n])
    decreases hi
  {
    if hi > lo {
      VarBindingsFromVariables(env, pattern, request, lo, hi - 1);
      var prev := VarBindings(env, pattern, request, lo, hi - 1);
      var all := VarBindings(env, pattern, request, lo, hi);
      forall n | 0 <= n < |all|
        ensures FromVariable(env, pattern, request, lo, hi, all[n])
      {
        if n < |prev| {
          assert all[n] == prev[n];
          assert FromVariable(env, pattern, request, lo, hi - 1, prev[n]);
        } else {
          assert FromVariable(env, pattern, request, lo, hi, all[n]) by {
            var k := hi - 1;
            assert lo <= k < hi && pattern[k] != request[k];
          }
        }
      }
    }
  }

  /** Every binding the comparator emits comes from a variable position where
      pattern and request differ, with the request segment as its value. */
  lemma BindingsComeFromVariables(env: Env, pattern: seq<string>, request: seq<string>)
    ensures forall n :: 0 <= n < |MatchPathPieces(env, pattern, request).bindings| ==>
      FromVariable(env, pattern, request, 0, if |pattern| < |request| then |pattern| else |request|,
                   MatchPathPieces(env, pattern, request).bindings[n])
  {
    var hi := if |pattern| < |request| then |pattern| else |request|;
    if !BothEmpty(env, pattern, request) {
      var d := FirstDisagreement(env, pattern, request, 0);
      VarBindingsFromVariables(env, pattern, request, 0, d);
      forall n | 0 <= n < |MatchPathPieces(env, pattern, request).bindings|
        ensures FromVariable(env, pattern, request, 0, hi, MatchPathPieces(env, pattern, request).bindings[n])
      {
        assert FromVariable(env, pattern, request, 0, d, MatchPathPieces(env, pattern, request).bindings[n]);
      }
    }
  }

  /** Bindings emitted before a mismatch are kept: unless both slices count
      as empty, when the first disagreeing position `d` lies inside both
      slices, the comparison fails and still returns the bindings of every
      position before `d`. */
  lemma PartialBindingsSurviveMismatch(env: Env, pattern: seq<string>, request: seq<string>, d: nat)
    requires !BothEmpty(env, pattern, request)
    requires d < |pattern| <= |request|
    requires AgreeBetween(env, pattern, request, 0, d) && !Agrees(env, pattern[d], request[d])
    ensures MatchPathPieces(env, pattern, request) == PieceResult(Miss, VarBindings(env, pattern, request, 0, d))
  {
    var f := FirstDisagreement(env, pattern, request, 0);
    assert f == d;
    assert !AgreeBetween(env, pattern, request, 0, |pattern|);
  }

  /** An instance: the variable at position 0 is bound although the
      comparison fails at position 1. */
  lemma PartialBindingsExample(env: Env)
    requires SaneEmptiness(env)
    requires env.isRouteVar("{id}") == Some("id") && env.isRouteVar("users") == None
    ensures MatchPathPieces(env, ["{id}", "users"], ["12", "actions"])
         == PieceResult(Miss, [Binding("id", "12")])
  {
    var pattern := ["{id}", "users"];
    var request := ["12", "actions"];
    assert !Agrees(env, pattern[1], request[1]);
    assert FirstDisagreement(env, pattern, request, 0) == 1;
    assert VarBindings(env, pattern, request, 0, 1) == [Binding("id", "12")];
  }
}

=== FILE: scenarios.dfy ===
/** Request scenarios of the repository's router tests, and the quirks of the
    scans, worked out on the model. The helpers stay abstract: each lemma
    assumes only the few helper results its scenario depends on. */
module Scenarios {
  import opened Wrappers
  import opened Helpers
  import opened Pieces
  import opened Match
  import opened MatchSpec

  /** Group `{username}/actions/{id}/` and the request
      `/oklookat/actions/69/coolword/hello/world`: the group matches as a
      prefix, binding `username` and `id`. */
  lemma VarsGroupScenario(env: Env)
    requires !env.isPathSliceEmpty(["{username}", "actions", "{id}"])
    requires env.isRouteVar("{username}") == Some("username") && env.isRouteVar("{id}") == Some("id")
    requires env.isMethodAllowed([], "GET")
    ensures Groups(env,
                   RouteMatcher("GET", "/oklookat/actions/69/coolword/hello/world",
                                ["oklookat", "actions", "69", "coolword", "hello", "world"]),
                   [Router(Prefix(["{username}", "actions", "{id}"], 0), [])])
         == Finished(Some(0), StatusOK, [Binding("username", "oklookat"), Binding("id", "69")])
  {
    var request := ["oklookat", "actions", "69", "coolword", "hello", "world"];
    var pattern := ["{username}", "actions", "{id}"];
    var m := RouteMatcher("GET", "/oklookat/actions/69/coolword/hello/world", request);
    var bindings := [Binding("username", "oklookat"), Binding("id", "69")];
    VarsGroupPieces(env);
    var groups := GroupSearch(env, m, [Router(Prefix(pattern, 0), [])], NotLongerThanRequest);
    assert groups.candidates[0] == Candidate(Prefix(pattern, 0), [], false);
    assert Passes(NotLongerThanRequest, pattern, request, request);
    assert [] + bindings == bindings;
    assert Step(groups, 0, InitialState(m)) == Stop(Finished(Some(0), StatusOK, bindings));
  }

  /** The route `{word}/hello/{who}` under that group, compared with the
      stripped slice `coolword/hello/world`: it matches exactly, binding `word`
      and `who`. */
  lemma VarsRouteScenario(env: Env)
    requires !env.isPathSliceEmpty(["{word}", "hello", "{who}"])
    requires env.isRouteVar("{word}") == Some("word") && env.isRouteVar("{who}") == Some("who")
    requires env.isMethodAllowed([], "GET")
    requires env.getExcluded(Prefix(["{word}", "hello", "{who}"], 3), "/oklookat/actions/69/coolword/hello/world")
          == ["coolword", "hello", "world"]
    ensures Routes(env,
                   RouteMatcher("GET", "/oklookat/actions/69/coolword/hello/world",
                                ["oklookat", "actions", "69", "coolword", "hello", "world"]),
                   [Route(Prefix(["{word}", "hello", "{who}"], 3), [], true)])
         == Finished(Some(0), StatusOK, [Binding("word", "coolword"), Binding("who", "world")])
  {
    var stripped := ["coolword", "hello", "world"];
    var pattern := ["{word}", "hello", "{who}"];
    var m := RouteMatcher("GET", "/oklookat/actions/69/coolword/hello/world",
                          ["oklookat", "actions", "69", "coolword", "hello", "world"]);
    var bindings := [Binding("word", "coolword"), Binding("who", "world")];
    VarsRoutePieces(env);
    var routes := RouteSearch(env, m, [Route(Prefix(pattern, 3), [], true)]);
    assert routes.candidates[0] == Candidate(Prefix(pattern, 3), [], true);
    assert Passes(SameLengthAsWorking, pattern, m.requestPathSlice, stripped);
    assert [] + bindings == bindings;
    assert Step(routes, 0, InitialState(m)) == Stop(Finished(Some(0), StatusOK, bindings));
  }

  lemma VarsGroupPieces(env: Env)
    requires !env.isPathSliceEmpty(["{username}", "actions", "{id}"])
    requires env.isRouteVar("{username}") == Some("username") && env.isRouteVar("{id}") == Some("id")
    ensures MatchPathPieces(env, ["{username}", "actions", "{id}"],
                            ["oklookat", "actions", "69", "coolword", "hello", "world"])
         == PieceResult(Hit, [Binding("username", "oklookat"), Binding("id", "69")])
  {
    var request := ["oklookat", "actions", "69", "coolword", "hello", "world"];
    var pattern := ["{username}", "actions", "{id}"];
    assert pattern[0] != request[0] && pattern[2] != request[2];
    assert AgreeBetween(env, pattern, request, 0, 3);
    assert FirstDisagreement(env, pattern, request, 0) == 3 by {
      assert FirstDisagreement(env, pattern, request, 2) == 3;
    }
    assert VarBindings(env, pattern, request, 0, 2) == [Binding("username", "oklookat")];
  }

  lemma VarsRoutePieces(env: Env)
    requires !env.isPathSliceEmpty(["{word}", "hello", "{who}"])
    requires env.isRouteVar("{word}") == Some("word") && env.isRouteVar("{who}") == Some("who")
    ensures MatchPathPieces(env, ["{word}", "hello", "{who}"], ["coolword", "hello", "world"])
         == PieceResult(Hit, [Binding("word", "coolword"), Binding("who", "world")])
  {
    var request := ["coolword", "hello", "world"];
    var pattern := ["{word}", "hello", "{who}"];
    assert pattern[0] != request[0] && pattern[2] != request[2];
    assert AgreeBetween(env, pattern, request, 0, 3);
    assert FirstDisagreement(env, pattern, request, 0) == 3 by {
      assert FirstDisagreement(env, pattern, request, 2) == 3;
    }
    assert VarBindings(env, pattern, request, 0, 2) == [Binding("word", "coolword")];
  }

  /** A group `/123/456/789` and the request `/fffffffff`: the only group is
      longer than the request and is skipped, so the scan runs off the end and
      reports the initial status 200, not 404. */
  lemma Group404Scenario(env: Env)
    ensures Groups(env, RouteMatcher("GET", "/fffffffff", ["fffffffff"]),
                   [Router(Prefix(["123", "456", "789"], 0), [])])
         == Finished(None, StatusInitial, [])
  {
    var m := RouteMatcher("GET", "/fffffffff", ["fffffffff"]);
    var groups := GroupSearch(env, m, [Router(Prefix(["123", "456", "789"], 0), [])], NotLongerThanRequest);
    assert groups.candidates[0] == Candidate(Prefix(["123", "456", "789"], 0), [], false);
    assert Step(groups, 0, InitialState(m)) == Continue(InitialState(m));
    assert ScanFrom(groups, 0, InitialState(m)) == ScanFrom(groups, 1, InitialState(m));
  }

  /** A pattern compared with an identical slice matches and binds nothing. */
  lemma SamePieces(env: Env, path: seq<string>)
    requires |path| > 0 && !env.isPathSliceEmpty(path)
    ensures MatchPathPieces(env, path, path) == PieceResult(Hit, [])
  {
    assert AgreeBetween(env, path, path, 0, |path|);
    VarBindingsNone(env, path, path, 0, FirstDisagreement(env, path, path, 0));
  }

  /** Two routes on the same path, the first allowing GET and the second
      DELETE: GET takes the first, DELETE passes over the first (405 so far)
      to the second, and POST is refused by both and yields 405 with `nil`. */
  lemma RouteAllowedMethodsScenario(env: Env, verb: string)
    requires !env.isPathSliceEmpty(["london", "is", "the", "capital", "of", "great", "britain"])
    requires env.isMethodAllowed(["GET"], "GET") && !env.isMethodAllowed(["GET"], "DELETE")
    requires env.isMethodAllowed(["DELETE"], "DELETE")
    requires !env.isMethodAllowed(["GET"], "POST") && !env.isMethodAllowed(["DELETE"], "POST")
    requires verb in {"GET", "DELETE", "POST"}
    ensures Routes(env, RouteMatcher(verb, "/london/is/the/capital/of/great/britain", ["london", "is", "the", "capital", "of", "great", "britain"]),
                   [Route(Prefix(["london", "is", "the", "capital", "of", "great", "britain"], 0), ["GET"], false),
                    Route(Prefix(["london", "is", "the", "capital", "of", "great", "britain"], 0), ["DELETE"], false)])
         == if verb == "GET" then Finished(Some(0), StatusOK, [])
            else if verb == "DELETE" then Finished(Some(1), StatusOK, [])
            else Finished(None, StatusMethodNotAllowed, [])
  {
    var path := ["london", "is", "the", "capital", "of", "great", "britain"];
    var m := RouteMatcher(verb, "/london/is/the/capital/of/great/britain", path);
    SamePieces(env, path);
    var routes := RouteSearch(env, m, [Route(Prefix(path, 0), ["GET"], false), Route(Prefix(path, 0), ["DELETE"], false)]);
    assert routes.candidates[0] == Candidate(Prefix(path, 0), ["GET"], false);
    assert routes.candidates[1] == Candidate(Prefix(path, 0), ["DELETE"], false);
    if verb == "GET" {
      assert Step(routes, 0, InitialState(m)) == Stop(Finished(Some(0), StatusOK, []));
    } else {
      var next := ScanState(Some(0), StatusMethodNotAllowed, path, []);
      assert Step(routes, 0, InitialState(m)) == Continue(next);
      assert ScanFrom(routes, 0, InitialState(m)) == ScanFrom(routes, 1, next);
      if verb == "DELETE" {
        assert Step(routes, 1, next) == Stop(Finished(Some(1), StatusOK, []));
      } else {
        assert Step(routes, 1, next) == Stop(Finished(None, StatusMethodNotAllowed, []));
      }
    }
  }

  /** Routes `/actions` and `/actions/users/something` with a request for the
      latter: the first is skipped by the exact-length filter. Groups
      `/long/group/path` and `/group` with the request `/group`: the first is
      longer than the request and skipped. */
  lemma LongLittlePathsScenario(env: Env)
    requires !env.isPathSliceEmpty(["actions", "users", "something"]) && !env.isPathSliceEmpty(["group"])
    requires env.isMethodAllowed([], "GET")
    ensures Routes(env, RouteMatcher("GET", "/actions/users/something", ["actions", "users", "something"]),
                   [Route(Prefix(["actions"], 0), [], false),
                    Route(Prefix(["actions", "users", "something"], 0), [], false)])
         == Finished(Some(1), StatusOK, [])
    ensures Groups(env, RouteMatcher("GET", "/group", ["group"]),
                   [Router(Prefix(["long", "group", "path"], 0), []),
                    Router(Prefix(["group"], 0), [])])
         == Finished(Some(1), StatusOK, [])
  {
    var path := ["actions", "users", "something"];
    var m := RouteMatcher("GET", "/actions/users/something", path);
    SamePieces(env, path);
    var routes := RouteSearch(env, m, [Route(Prefix(["actions"], 0), [], false), Route(Prefix(path, 0), [], false)]);
    assert routes.candidates[0] == Candidate(Prefix(["actions"], 0), [], false);
    assert routes.candidates[1] == Candidate(Prefix(path, 0), [], false);
    assert Step(routes, 0, InitialState(m)) == Continue(InitialState(m));
    assert ScanFrom(routes, 0, InitialState(m)) == ScanFrom(routes, 1, InitialState(m));
    assert Step(routes, 1, InitialState(m)) == Stop(Finished(Some(1), StatusOK, []));

    var g := RouteMatcher("GET", "/group", ["group"]);
    SamePieces(env, ["group"]);
    var groups := GroupSearch(env, g, [Router(Prefix(["long", "group", "path"], 0), []), Router(Prefix(["group"], 0), [])],
                              NotLongerThanRequest);
    assert groups.candidates[0] == Candidate(Prefix(["long", "group", "path"], 0), [], false);
    assert groups.candidates[1] == Candidate(Prefix(["group"], 0), [], false);
    assert Step(groups, 0, InitialState(g)) == Continue(InitialState(g));
    assert ScanFrom(groups, 0, InitialState(g)) == ScanFrom(groups, 1, InitialState(g));
    assert Step(groups, 1, InitialState(g)) == Stop(Finished(Some(1), StatusOK, []));
  }

  /** The sticky candidate: the first route matches but refuses POST, the
      second is skipped by the length filter, and the scan runs off the end
      still holding the first route together with 405. */
  lemma StickyMatchScenario(env: Env)
    requires !env.isPathSliceEmpty(["a"])
    requires !env.isMethodAllowed(["GET"], "POST")
    ensures Routes(env, RouteMatcher("POST", "/a", ["a"]),
                   [Route(Prefix(["a"], 0), ["GET"], false),
                    Route(Prefix(["b", "c"], 0), [], false)])
         == Finished(Some(0), StatusMethodNotAllowed, [])
  {
    var m := RouteMatcher("POST", "/a", ["a"]);
    SamePieces(env, ["a"]);
    var routes := RouteSearch(env, m, [Route(Prefix(["a"], 0), ["GET"], false), Route(Prefix(["b", "c"], 0), [], false)]);
    assert routes.candidates[0] == Candidate(Prefix(["a"], 0), ["GET"], false);
    assert routes.candidates[1] == Candidate(Prefix(["b", "c"], 0), [], false);
    var next := ScanState(Some(0), StatusMethodNotAllowed, ["a"], []);
    assert Step(routes, 0, InitialState(m)) == Continue(next);
    assert ScanFrom(routes, 0, InitialState(m)) == ScanFrom(routes, 1, next);
    assert Step(routes, 1, next) == Continue(next);
    assert ScanFrom(routes, 1, next) == ScanFrom(routes, 2, next);
  }

  /** The working slice carries over: a route under a group strips the request
      to `users`, and the next route, registered at the root as `/users`, is
      compared with that stripped slice and matches the request `/api/users`. */
  lemma WorkingSliceCarriesOverScenario(env: Env)
    requires !env.isPathSliceEmpty(["x"]) && !env.isPathSliceEmpty(["users"])
    requires env.isRouteVar("x") == None
    requires env.getExcluded(Prefix(["x"], 1), "/api/users") == ["users"]
    requires env.isMethodAllowed([], "GET")
    ensures Routes(env, RouteMatcher("GET", "/api/users", ["api", "users"]),
                   [Route(Prefix(["x"], 1), [], true),
                    Route(Prefix(["users"], 0), [], false)])
         == Finished(Some(1), StatusOK, [])
  {
    var m := RouteMatcher("GET", "/api/users", ["api", "users"]);
    assert MatchPathPieces(env, ["x"], ["users"]) == PieceResult(Miss, []) by {
      assert !Agrees(env, ["x"][0], ["users"][0]);
    }
    SamePieces(env, ["users"]);
    var routes := RouteSearch(env, m, [Route(Prefix(["x"], 1), [], true), Route(Prefix(["users"], 0), [], false)]);
    assert routes.candidates[0] == Candidate(Prefix(["x"], 1), [], true);
    assert routes.candidates[1] == Candidate(Prefix(["users"], 0), [], false);
    var next := ScanState(None, StatusInitial, ["users"], []);
    assert Step(routes, 0, InitialState(m)) == Continue(next);
    assert ScanFrom(routes, 0, InitialState(m)) == ScanFrom(routes, 1, next);
    assert Step(routes, 1, next) == Stop(Finished(Some(1), StatusOK, []));
  }
}

=== FILE: wrappers.dfy ===
/** The Some/None datatype used where the Go code has a nil-able pointer or a
    (bool, value) pair. */
module Wrappers {

  datatype Option<+T> = None | Some(value: T)
}
